=== FILE: README.md ===
# Visit and uptime store of the STG-44 landing page, in Dafny

The landing page's server keeps every visit in process memory. It assigns
ids from a counter that starts at 1 and turns empty or absent attributes
into `null`. It answers "all visits", "visits of the last `d` days" and
"total visits", and serves a seven-day histogram counted by calendar day. The
production server (`server/index.js`) also keeps a 24-hour window of
health-check times and reports uptime from a fixed start time. The typed
server (`server/storage.ts`, `server/routes.ts`) has a user table instead.
The page (`client/src/pages/home.tsx`) classifies the browser and builds the
payload it posts.

The model has these modules:

- `Nullable`: optional strings and JavaScript's `||` on them.
- `Clock`: integer-millisecond time, fixed-length days, midnight.
- `Seqs`: subsequence, sum, last element.
- `Visits`: the eleven attributes, the record `createVisit` builds, and the rolling date filter with its order facts.
- `Uptime`: the check window after `recordUptime`, the last check, and rounding the uptime to hundredths of an hour.
- `DailyStats`: the seven calendar-day buckets, their labels, and the loop that fills them.
- `ClientIp`: choosing the stored ip from headers, socket and client data.
- `Home`: `getBrowserName`, the location mapping and the visit payload.
- `ServerIndex`: the `MemStorage` class of `server/index.js` (visits and uptime) and its `/health`, `POST /api/visits` and `/api/visits/stats` handlers.
- `ServerStorage`: the `MemStorage` class of `server/storage.ts` (users and visits).
- `ServerRoutes`: the `POST /api/visits` and `/api/visits/stats` handlers of `server/routes.ts`.

The methods `ThreeVisitsScenario`, `EightDaysLaterScenario`, `UptimeScenario`
(in `ServerIndex`) and `DuplicateUsernameScenario` (in `ServerStorage`) are
worked examples of the stores in use, not models of source functions.

Each store is a class. Its JavaScript `Map` becomes a sequence in insertion
order, its counters become fields, and every method that reads the clock
takes `now` (milliseconds) as a parameter. The class invariant `Valid()`
says that record `i` has id `i + 1`. So Map keys never collide, the Map's
size is the number of inserts, and ids strictly increase. The invariant also
says that no stored attribute is an empty string, and (in `server/index.js`)
that the uptime window spans at most 24 hours back from its latest check.
`serverStartTime` is a `const` field, so nothing can reassign it after
construction. The `server/index.js` store also keeps a ghost `lastNow`: the
clock value of its latest `createVisit`. The clock never goes back, so
`createVisit` and the stats handler take a `now` at least that value.
Because the clock never goes back, the invariant of that store also says
that `visitedAt` never decreases in creation order.

A zero-day range query uses the cutoff `now` itself (server/index.js:40-41).
`visitedAt` is the clock value as given; it is not clamped against earlier
records. The routes of `server/routes.ts` call `recordUptime` and
`getUptimeStats`. The `server/storage.ts` class declares both in its
interface but does not define them.

## Model

| member | source | states |
|---|---|---|
| `Nullable.Or` | client/src/pages/home.tsx:100-102 | `a \|\| b` on string properties: the result is truthy exactly when either operand is; it is `a` whenever `a` is truthy, otherwise it is `b` |
| `Nullable.OrNull` | server/index.js:18-28 | `x \|\| null`: a truthy value is kept, anything falsy becomes `null` |
| `Clock.Midnight` | server/index.js:193-195 | midnight of a day is a multiple of a day, at or before `t` and less than a day before it |
| `Visits.NewVisit` | server/index.js:16-30 | the record has the given id and is stamped `now`; each of the eleven attributes is kept when truthy and is `null` when absent or empty; no stored attribute is empty |
| `Visits.NewVisitIdempotent` | server/index.js:18-28 | normalising an already stored record changes nothing |
| `Visits.Since` | server/index.js:42-44 | a record is in the result exactly when it is stored and stamped at or after the cutoff; the result is no longer than the input |
| `Visits.SinceIsSubsequence` | server/index.js:42-44 | the range result keeps the stored order (it is a subsequence of `getVisits`) |
| `Visits.SinceMonotone` | server/index.js:39-45 | an earlier cutoff (more days) keeps every record a later one keeps, in the same order |
| `Visits.SinceKeepsIdOrder` | server/index.js:42-44 | filtering records in id order gives records in strictly increasing id order |
| `Visits.SinceMultiplicity` | server/index.js:42-44 | the filter keeps every copy of a record at or after the cutoff and no copy of one before it |
| `Visits.SinceKeepsAll` | server/index.js:42-44 | when all records are at or after the cutoff, all are returned in order |
| `Visits.SinceKeepsNone` | server/index.js:42-44 | when all records are before the cutoff, none is returned |
| `Uptime.Later` | server/index.js:54 | a check survives the prune exactly when it is strictly later than the cutoff, and every copy of a surviving timestamp is kept |
| `Uptime.LaterAppend` | server/index.js:52-54 | a just-appended check that passes the prune stays last, after the surviving older checks |
| `Uptime.LaterIsSubsequence` | server/index.js:54 | surviving checks keep their relative order |
| `Uptime.Recorded` | server/index.js:51-55 | after recording at `now` the window is non-empty, ends with `now`, holds exactly `now` and the old checks later than `now` minus 24 h, keeps their order, and spans at most 24 hours |
| `Uptime.LastCheck` | server/index.js:64 | the last check is the window's last element, or the server start time when the window is empty |
| `Uptime.UptimeHundredths` | server/index.js:59-63 | the uptime is the elapsed time in hundredths of an hour, rounded half up (within half a hundredth of the exact value) |
| `Uptime.UptimeMonotone` | server/index.js:57-63 | the reported uptime never decreases as time passes |
| `DailyStats.CountIn` | server/index.js:200-203 | a day's count is at most the number of visits, and zero for an empty interval |
| `DailyStats.Buckets` | server/index.js:189-207 | there are exactly seven counts; slot `k` counts the visits of the day `6 - k` days back, oldest first |
| `DailyStats.WeekdayLabel` | server/index.js:206 | every label is one of the seven short weekday names |
| `DailyStats.Labels` | server/index.js:190-206 | there are exactly seven labels, one per bucket, oldest first |
| `DailyStats.DailyCounts` | server/index.js:189-207 | the loop writing slot `6 - i` for `i = 6..0` and pushing labels produces exactly `Buckets` and `Labels` |
| `DailyStats.DaysAdjacent` | server/index.js:193-198 | each bucket's day ends where the next one begins, and the days increase |
| `DailyStats.BucketsDisjoint` | server/index.js:200-203 | a timestamp falls into at most one bucket |
| `DailyStats.MidnightStartsNewDay` | server/index.js:200-203 | a visit stamped exactly at a bucket's midnight is counted once in that bucket and not in the previous day's |
| `DailyStats.CountSplit` | server/index.js:200-203 | counts of two adjacent half-open intervals add up to the count of their union |
| `DailyStats.CountInSince` | server/index.js:186-203 | fetching with a cutoff at or before a day loses no visit of that day |
| `DailyStats.CountInBelow` | server/index.js:200-203 | with no visit at or after `hi`, counting `[lo, hi)` counts every visit at or after `lo` |
| `DailyStats.BucketPrefixSum` | server/index.js:192-207 | the first `j` buckets together count the first `j` days |
| `DailyStats.BucketsSum` | server/index.js:189-207 | the seven counts add up to the visits from midnight six days ago to the next midnight, so at most the number of fetched visits |
| `DailyStats.DaysAfterCutoff` | server/index.js:186-195 | every bucket day starts after the rolling seven-day cutoff |
| `DailyStats.BucketsOfRecent` | server/index.js:185-207 | bucketing the visits of `getVisitsByDateRange(7)` gives the same counts as bucketing all stored visits |
| `DailyStats.BucketsSumOfPast` | server/index.js:186-207 | when no visit is later than `now`, the counts add up to the visits at or after midnight six days ago |
| `DailyStats.BucketsSumAll` | server/index.js:186-207 | when every visit falls within the seven calendar days ending today, the counts add up to exactly the fetched visits |
| `ClientIp.RealIp` | server/index.js:117-121 | the chain yields one of its five operands; the result is truthy exactly when some operand is; a truthy forwarded-for wins; a falsy result is the client's ip |
| `ClientIp.FirstTruthy` | server/index.js:117-121 | an `\|\|` chain yields the first truthy operand (all before it falsy), otherwise the last one |
| `ClientIp.RealIpIsFirstTruthy` | server/index.js:117-121 | the handler's chain picks the first truthy of forwarded-for, real-ip, connection address, socket address, falling back to the client ip |
| `ClientIp.ToIp` | server/index.js:125 | a string is used as it is, an array gives its first element, and an empty array or missing value gives no ip |
| `ClientIp.WithRealIp` | server/index.js:123-126 | the chosen address replaces `ip`; every other client field passes through unchanged |
| `ClientIp.ServerAddressWins` | server/index.js:117-121 | any truthy server-side source makes the stored ip independent of what the client claims |
| `ClientIp.ClientIpFallback` | server/index.js:117-126 | with no truthy server-side source the client's data is passed on unchanged |
| `ClientIp.ForwardedListFirst` | server/index.js:117-125 | an array-valued forwarded-for header wins and gives its first element; an empty array gives no ip |
| `Home.Includes` | client/src/pages/home.tsx:47-51 | `includes`: the empty pattern occurs in every string, a pattern longer than the string never occurs, and one of the same length occurs only when equal |
| `Home.IncludesIff` | client/src/pages/home.tsx:47-51 | `includes` holds exactly when the pattern occurs at some position |
| `Home.BrowserName` | client/src/pages/home.tsx:46-53 | the name is one of Chrome, Firefox, Safari, Edge, Opera, Unknown; a returned browser name occurs in the user agent; each name is returned exactly when it occurs and none of the names tested before it does (Chrome whenever it occurs); Unknown exactly when none occurs |
| `Home.LegacyEdgeIsChrome` | client/src/pages/home.tsx:47 | a legacy Edge user agent, which also mentions Safari and Edge, is classified as Chrome |
| `Home.LocationFrom` | client/src/pages/home.tsx:97-104 | `region` prefers `region` over `regionName`, `country` prefers `country_name` over `country`, `countryCode` prefers `country_code` over `countryCode`; each is truthy when either source is; ip, city and timezone are copied |
| `Home.VisitPayload` | client/src/pages/home.tsx:118-125 | location fields come from the location info; browser, platform, language and user agent come from the browser; a non-empty referrer is kept and an empty one becomes undefined |
| `Home.NoLocationStoresNull` | client/src/pages/home.tsx:70-125 | when no location could be found (`locationInfo = {}`), the stored visit has `null` in all six location fields |
| `Home.StoredBrowserNeverNull` | client/src/pages/home.tsx:120 | a visit posted by the page always stores its browser name, never `null` |
| `ServerIndex.MemStorage.constructor` | server/index.js:7-12 | the store starts with no visits, counter 1, an empty window and the start time `now` |
| `ServerIndex.MemStorage.IdsIncrease` | server/index.js:9-15 | stored ids are unique, strictly increase in creation order and lie below the counter |
| `ServerIndex.MemStorage.CreateVisit` | server/index.js:14-33 | the new record has the previous counter value as id, normalised attributes and `visitedAt = now`; it is appended and earlier records are untouched; the counter grows by one; the window is untouched; `now` becomes the latest clock value |
| `ServerIndex.MemStorage.GetVisits` | server/index.js:35-37 | all records, in creation (strictly increasing id) order |
| `ServerIndex.MemStorage.GetVisitsByDateRange` | server/index.js:39-45 | exactly the records stamped at or after `now - days` days, as a subsequence of `getVisits`, in id order |
| `ServerIndex.MemStorage.GetTotalVisits` | server/index.js:47-49 | the number of records, which equals the number of `createVisit` calls |
| `ServerIndex.MemStorage.RecordUptime` | server/index.js:51-55 | after the call `now` is the last check, every check is later than `now` minus 24 h, survivors keep their order, and visits are untouched |
| `ServerIndex.MemStorage.GetUptimeStats` | server/index.js:57-66 | the uptime is the time since the fixed start, in hundredths of an hour rounded half up; the last check is the latest in the window, or the start time |
| `ServerIndex.Health` | server/index.js:73-87 | a health check records `now` in the window exactly as `recordUptime` does and leaves visits and counter unchanged; it reports `now` as last check, the unchanged total and the uptime counted from the start time |
| `ServerIndex.TrackVisit` | server/index.js:112-128 | the stored visit is `createVisit` of the client data with the chosen real ip; it is appended, the counter grows by one and the uptime window is unchanged |
| `ServerIndex.VisitStats` | server/index.js:183-217 | the total is `getTotalVisits()`; the seven counts are the calendar-day buckets of all visits; they add up to exactly the visits since midnight six days ago, at most the fetched recent visits; seven labels |
| `ServerStorage.UserById` | server/storage.ts:28-30 | a found user is stored under that id; nothing found means no user has that id |
| `ServerStorage.FirstWithUsername` | server/storage.ts:32-36 | the position of the first user with that name, none before it has it; none when no user has it |
| `ServerStorage.UserByIdAtPosition` | server/storage.ts:38-43 | in a table filled by `createUser`, id `n` is the `n`-th user created, and ids outside `1..count` find nothing |
| `ServerStorage.MemStorage.constructor` | server/storage.ts:21-26 | both tables start empty with both counters at 1 |
| `ServerStorage.MemStorage.GetUser` | server/storage.ts:28-30 | the user created with that id, which exists exactly when `1 <= id <` the user counter |
| `ServerStorage.MemStorage.GetUserByUsername` | server/storage.ts:32-36 | the earliest-created user with that name; undefined exactly when no user has it |
| `ServerStorage.MemStorage.CreateUser` | server/storage.ts:38-43 | the new user is `{...input, id}` with the previous counter value; it is appended (duplicate names accepted); visits and the visit counter are untouched |
| `ServerStorage.MemStorage.CreateVisit` | server/storage.ts:45-64 | the new record has the previous visit counter value, normalised attributes and `visitedAt = now`; it is appended; users are untouched |
| `ServerStorage.MemStorage.GetVisits` | server/storage.ts:66-68 | all records, in creation order |
| `ServerStorage.MemStorage.GetVisitsByDateRange` | server/storage.ts:70-77 | exactly the records stamped at or after `now - days` days, as a subsequence of `getVisits`, in id order |
| `ServerStorage.MemStorage.GetTotalVisits` | server/storage.ts:79-81 | the number of records, which equals the number of `createVisit` calls |
| `ServerRoutes.TrackVisit` | server/routes.ts:47-64 | the stored visit takes the chosen real ip; every other attribute is the client's value after `\|\| null`; users are untouched |
| `ServerRoutes.VisitStats` | server/routes.ts:115-149 | the total is `getTotalVisits()`; exactly seven counts, slot `k` counting all visits of the day `6 - k` days back, adding up to at most the fetched visits and, when no stored visit is later than `now`, to exactly the visits since midnight six days ago; seven labels |

## Left out

- HTTP plumbing is not modelled: Express setup, JSON parsing, static files, the SPA fallback and listening (server/index.js:220-249, server/prod.ts, start.js).
- The Discord webhook, `fetch` and `monitoring.js` are not modelled, because they are outbound network I/O.
- The geolocation requests of the page (client/src/pages/home.tsx:73-96, 105-115) are network I/O and are not modelled. This includes the backup-service object and the `{ ip: origin }` fallback. Only the mapping of an answer onto `locationInfo` is modelled. React hooks, chart loading and JSX are UI.
- `build.js` is a build script and is not modelled.
- The `server/index.js` handler stores `req.body` without validation (server/index.js:114). The model takes every attribute to be a string or absent, so two behaviours are lost. A non-string JSON value (`{"country": 5}`) would be stored as it is. `realIP?.toString()` (server/index.js:125) turns a falsy non-string client ip such as `0` into the truthy `"0"`; `ClientIp.ClientIpFallback` covers only string client ips.
- ServerStorage.MemStorage.Valid: does not state that `visitedAt` never decreases in creation order, because the model of the `server/storage.ts` class does not constrain the clock across calls (its constructor reads no clock to start from); its stats handler takes "no stored visit is later than `now`" as a precondition instead.
- `shared/schema.ts` is used only for the field lists. `insertVisitSchema.parse` (server/routes.ts:49) is taken to have already produced well-shaped `Attributes`.
- Error responses (the `catch` branches returning 400, 500 or 503) are not modelled, because no modelled store operation can fail.
- The `/health` and `/api/uptime` handlers of server/routes.ts call `recordUptime` and `getUptimeStats`. The server/storage.ts class does not define them, so those handlers are not modelled; the uptime logic is the one in server/index.js.
- The clock is a parameter, and the model reads it once per operation. The source reads it more often. `recordUptime` reads it twice (push, then prune). The stats handler reads it eight times: once in `getVisitsByDateRange` (server/index.js:40, server/storage.ts:71) and once per loop pass (server/index.js:193, server/routes.ts:125). The model uses one `now` for all of them.
- DailyStats.DaysAdjacent, DailyStats.BucketsDisjoint: these hold for one `now`. In the source, a stats request that runs across midnight computes its days from different clock values, so two buckets can then cover the same day or a day can be skipped; that is not modelled.
- Calendar days have a fixed length of 86,400,000 ms starting at multiples of a day. Time zones and daylight-saving shifts of `setDate` and `setHours` are not modelled. The weekday label is the weekday of that day counted from the epoch, not `toLocaleDateString`.
- Floating point is not modelled: the uptime is integer hundredths of an hour. The source's `Math.round(hours * 100) / 100` on floats may differ at exact halves. `process.uptime()` in the health response is also out.
- `days` is an integer number of days. The source accepts any number.
- Async execution and interleaving of concurrent requests are not modelled. Each store operation is one atomic step.
- The `id` counter is unbounded. JavaScript numbers stop being exact above 2^53.

=== FILE: client_ip.dfy ===
/**
 * Choice of the address stored with a visit in `POST /api/visits`: the first
 * truthy of the proxy headers, the connection and socket addresses and the
 * client-supplied ip; an array-valued header gives its first element. The
 * chosen address replaces the `ip` of the client's data, which is otherwise
 * passed on unchanged.
 */
module ClientIp {
  import opened Nullable
  import opened Visits

  /** A request value as Node presents it: a string, or an array for a repeated header. */
  datatype HeaderValue = Text(s: string) | List(items: seq<string>)

  /** The parts of an inbound request the handler reads an address from. */
  datatype Request = Request(
    forwardedFor: Option<HeaderValue>,      // req.headers['x-forwarded-for']
    realIp: Option<HeaderValue>,            // req.headers['x-real-ip']
    connectionAddress: Option<string>,      // req.connection.remoteAddress
    socketAddress: Option<string>)          // req.socket.remoteAddress

  /** JavaScript truthiness: a string when non-empty, an array always (even an empty one). */
  predicate IsTruthy(v: Option<HeaderValue>) {
    v.Some? && (v.value.List? || v.value.s != "")
  }

  function AsValue(x: Option<string>): Option<HeaderValue> {
    match x
    case None => None
    case Some(s) => Some(Text(s))
  }

  /**
   * `x-forwarded-for || x-real-ip || connection.remoteAddress ||
   * socket.remoteAddress || clientData.ip`.
   */
  function RealIp(req: Request, clientIp: Option<string>): (r: Option<HeaderValue>)
    ensures r in Candidates(req, clientIp)
    ensures IsTruthy(r) <==>
      IsTruthy(req.forwardedFor) || IsTruthy(req.realIp) || IsTruthy(AsValue(req.connectionAddress))
      || IsTruthy(AsValue(req.socketAddress)) || IsTruthy(AsValue(clientIp))
    ensures IsTruthy(req.forwardedFor) ==> r == req.forwardedFor
    ensures !IsTruthy(r) ==> r == AsValue(clientIp)
  {
    if IsTruthy(req.forwardedFor) then req.forwardedFor
    else if IsTruthy(req.realIp) then req.realIp
    else if IsTruthy(AsValue(req.connectionAddress)) then AsValue(req.connectionAddress)
    else if IsTruthy(AsValue(req.socketAddress)) then AsValue(req.socketAddress)
    else AsValue(clientIp)
  }

  /** The operands of that `||` chain, in order. */
  function Candidates(req: Request, clientIp: Option<string>): seq<Option<HeaderValue>> {
    [req.forwardedFor, req.realIp, AsValue(req.connectionAddress),
     AsValue(req.socketAddress), AsValue(clientIp)]
  }

  /** Position of the value an `||` chain yields: the first truthy operand, else the last. */
  function FirstTruthy(operands: seq<Option<HeaderValue>>): (k: nat)
    requires |operands| > 0
    ensures k < |operands|
    ensures forall j :: 0 <= j < k ==> !IsTruthy(operands[j])
    ensures k < |operands| - 1 ==> IsTruthy(operands[k])
  {
    if |operands| == 1 || IsTruthy(operands[0]) then 0
    else 1 + FirstTruthy(operands[1..])
  }

  /** The chain in the handler picks exactly the first truthy source, the client ip last. */
  lemma RealIpIsFirstTruthy(req: Request, clientIp: Option<string>)
    ensures RealIp(req, clientIp) == Candidates(req, clientIp)[FirstTruthy(Candidates(req, clientIp))]
  {
    var cs := Candidates(req, clientIp);
    var c1, c2, c3, c4 := cs[1..], cs[2..], cs[3..], cs[4..];
    assert c1[1..] == c2 && c2[1..] == c3 && c3[1..] == c4;
    assert c4 == [AsValue(clientIp)] && FirstTruthy(c4) == 0;
    if !IsTruthy(cs[0]) {
      assert FirstTruthy(cs) == 1 + FirstTruthy(c1);
      if !IsTruthy(c1[0]) {
        assert FirstTruthy(c1) == 1 + FirstTruthy(c2);
        if !IsTruthy(c2[0]) {
          assert FirstTruthy(c2) == 1 + FirstTruthy(c3);
          if !IsTruthy(c3[0]) {
            assert FirstTruthy(c3) == 1 + FirstTruthy(c4);
          }
        }
      }
    }
  }

  /** `Array.isArray(realIP) ? realIP[0] : realIP?.toString()`. */
  function ToIp(v: Option<HeaderValue>): (ip: Option<string>)
    ensures v.Some? && v.value.Text? ==> ip == Some(v.value.s)
    ensures v.Some? && v.value.List? && v.value.items != [] ==> ip == Some(v.value.items[0])
    ensures v.None? || (v.value.List? && v.value.items == []) ==> ip.None?
  {
    match v
    case None => None
    case Some(Text(s)) => Some(s)
    case Some(List(items)) => if |items| > 0 then Some(items[0]) else None
  }

  /** `{ ...clientData, ip: <chosen address> }`: only the ip is replaced. */
  function WithRealIp(clientData: Attributes, req: Request): (visitData: Attributes)
    ensures visitData.ip == ToIp(RealIp(req, clientData.ip))
    ensures forall a :: a != Ip ==> visitData.Get(a) == clientData.Get(a)
  {
    clientData.(ip := ToIp(RealIp(req, clientData.ip)))
  }

  /** Any truthy server-side source wins over what the client claims. */
  lemma ServerAddressWins(clientData: Attributes, other: Attributes, req: Request)
    requires IsTruthy(req.forwardedFor) || IsTruthy(req.realIp)
          || Truthy(req.connectionAddress) || Truthy(req.socketAddress)
    ensures WithRealIp(clientData, req).ip == WithRealIp(other, req).ip
  {
  }

  /** With no truthy server-side source the client's own ip is kept as it is. */
  lemma ClientIpFallback(clientData: Attributes, req: Request)
    requires !IsTruthy(req.forwardedFor) && !IsTruthy(req.realIp)
    requires !Truthy(req.connectionAddress) && !Truthy(req.socketAddress)
    ensures WithRealIp(clientData, req) == clientData
  {
  }

  /** An array-valued forwarded-for header gives its first element; an empty array gives no ip. */
  lemma ForwardedListFirst(clientData: Attributes, req: Request, items: seq<string>)
    requires req.forwardedFor == Some(List(items))
    ensures items != [] ==> WithRealIp(clientData, req).ip == Some(items[0])
    ensures items == [] ==> WithRealIp(clientData, req).ip == None
  {
  }
}

=== FILE: clock.dfy ===
/**
 * Time as integer milliseconds since the epoch. Calendar days are modelled
 * as fixed 86,400,000 ms days starting at multiples of a day.
 */
module Clock {
  const Hour: int := 3_600_000
  const Day: int := 86_400_000

  /** Midnight at or before `t`: what `setHours(0, 0, 0, 0)` does to a date. */
  function Midnight(t: int): (m: int)
    ensures m <= t < m + Day
    ensures m % Day == 0
  {
    t - t % Day
  }
}

=== FILE: daily_stats.dfy ===
/**
 * The seven-day histogram behind `GET /api/visits/stats`: the visits fetched
 * with the rolling seven-day cutoff are counted per calendar day, oldest day
 * first, each day the half-open interval from one midnight to the next.
 */
module DailyStats {
  import opened Clock
  import opened Seqs
  import opened Visits

  /** Midnight `daysBack` days before the day of `now`. */
  function DayStart(now: int, daysBack: nat): int {
    Midnight(now) - daysBack * Day
  }

  /** `visits.filter(v => lo <= v.visitedAt && v.visitedAt < hi).length`. */
  function CountIn(vs: seq<Visit>, lo: int, hi: int): (n: nat)
    ensures n <= |vs|
    ensures hi <= lo ==> n == 0
  {
    if vs == [] then 0
    else (if lo <= vs[0].visitedAt < hi then 1 else 0) + CountIn(vs[1..], lo, hi)
  }

  /** Slot `k` of the histogram (0 = oldest) covers the day starting at `DayStart(now, 6 - k)`. */
  function Bucket(recent: seq<Visit>, now: int, k: nat): nat
    requires k < 7
  {
    CountIn(recent, DayStart(now, 6 - k), DayStart(now, 6 - k) + Day)
  }

  /** The seven daily counts, oldest first. */
  function Buckets(recent: seq<Visit>, now: int): (b: seq<nat>)
    ensures |b| == 7
    ensures forall k :: 0 <= k < 7 ==> b[k] == Bucket(recent, now, k)
  {
    seq(7, k requires 0 <= k < 7 => Bucket(recent, now, k))
  }

  const Weekdays: seq<string> := ["Sun", "Mon", "Tue", "Wed", "Thu", "Fri", "Sat"]

  /** Short weekday name of the day starting at `dayStart` (day 0 of the epoch was a Thursday). */
  function WeekdayLabel(dayStart: int): (name: string)
    ensures name in Weekdays
  {
    Weekdays[(dayStart / Day + 4) % 7]
  }

  /** The seven labels, oldest first. */
  function Labels(now: int): (labels: seq<string>)
    ensures |labels| == 7
    ensures forall k :: 0 <= k < 7 ==> labels[k] == WeekdayLabel(DayStart(now, 6 - k))
  {
    seq(7, k requires 0 <= k < 7 => WeekdayLabel(DayStart(now, 6 - k)))
  }

  /** The statistics response: total visits, daily counts and their labels. */
  datatype StatsResponse = StatsResponse(total: nat, daily: seq<nat>, labels: seq<string>)

  /**
   * The loop of the stats handler: `dailyVisits = Array(7).fill(0)`, then for
   * `i = 6` down to `0` the count of day `i` days back goes to slot `6 - i`
   * and its label is pushed.
   */
  method DailyCounts(recent: seq<Visit>, now: int) returns (daily: seq<nat>, labels: seq<string>)
    ensures daily == Buckets(recent, now)
    ensures labels == Labels(now)
  {
    var dailyVisits := new nat[7](_ => 0);
    labels := [];
    var i := 6;
    while i >= 0
      invariant -1 <= i <= 6
      invariant |labels| == 6 - i
      invariant forall k :: 0 <= k < 6 - i ==> dailyVisits[k] == Bucket(recent, now, k)
      invariant forall k :: 0 <= k < 6 - i ==> labels[k] == WeekdayLabel(DayStart(now, 6 - k))
      invariant forall k :: 6 - i <= k < 7 ==> dailyVisits[k] == 0
    {
      var date := DayStart(now, i);
      var nextDate := date + Day;
      var dayVisits := CountIn(recent, date, nextDate);
      dailyVisits[6 - i] := dayVisits;
      labels := labels + [WeekdayLabel(date)];
      i := i - 1;
    }
    daily := dailyVisits[..];
  }

  /** The seven days follow each other: each ends where the next begins. */
  lemma DaysAdjacent(now: int, k: nat)
    requires k < 6
    ensures DayStart(now, 6 - k) + Day == DayStart(now, 6 - (k + 1))
    ensures DayStart(now, 6 - k) < DayStart(now, 6 - (k + 1))
  {
  }

  /** A timestamp falls in at most one of the seven days: the buckets are disjoint. */
  lemma BucketsDisjoint(now: int, t: int, k1: nat, k2: nat)
    requires k1 < 7 && k2 < 7
    requires DayStart(now, 6 - k1) <= t < DayStart(now, 6 - k1) + Day
    requires DayStart(now, 6 - k2) <= t < DayStart(now, 6 - k2) + Day
    ensures k1 == k2
  {
  }

  /** A visit exactly at midnight counts towards the day that starts then, not the one before. */
  lemma MidnightStartsNewDay(v: Visit, now: int, k: nat)
    requires 0 < k < 7
    requires v.visitedAt == DayStart(now, 6 - k)
    ensures Bucket([v], now, k) == 1
    ensures Bucket([v], now, k - 1) == 0
  {
    assert [v][1..] == [];
  }

  /** Counting two adjacent intervals counts their union. */
  lemma {:induction false} CountSplit(vs: seq<Visit>, a: int, b: int, c: int)
    requires a <= b <= c
    ensures CountIn(vs, a, b) + CountIn(vs, b, c) == CountIn(vs, a, c)
  {
    if vs != [] {
      CountSplit(vs[1..], a, b, c);
    }
  }

  /** Pre-filtering with a cutoff at or before the interval loses nothing from it. */
  lemma {:induction false} CountInSince(vs: seq<Visit>, cutoff: int, lo: int, hi: int)
    requires cutoff <= lo
    ensures CountIn(Since(vs, cutoff), lo, hi) == CountIn(vs, lo, hi)
  {
    if vs != [] {
      CountInSince(vs[1..], cutoff, lo, hi);
      var rest := Since(vs[1..], cutoff);
      if vs[0].visitedAt >= cutoff {
        assert Since(vs, cutoff) == [vs[0]] + rest;
        assert ([vs[0]] + rest)[1..] == rest;
      } else {
        assert Since(vs, cutoff) == rest;
      }
    }
  }

  /** When no visit is at or after `hi`, counting `[lo, hi)` counts every visit at or after `lo`. */
  lemma {:induction false} CountInBelow(vs: seq<Visit>, lo: int, hi: int)
    requires forall v :: v in vs ==> v.visitedAt < hi
    ensures CountIn(vs, lo, hi) == |Since(vs, lo)|
  {
    if vs != [] {
      assert vs[0] in vs;
      assert forall v :: v in vs[1..] ==> v in vs;
      CountInBelow(vs[1..], lo, hi);
      if vs[0].visitedAt >= lo {
        assert Since(vs, lo) == [vs[0]] + Since(vs[1..], lo);
      } else {
        assert Since(vs, lo) == Since(vs[1..], lo);
      }
    }
  }

  /** The first `j` buckets together count the first `j` days. */
  lemma {:induction false} BucketPrefixSum(recent: seq<Visit>, now: int, j: nat)
    requires j <= 7
    ensures Sum(Buckets(recent, now)[..j]) == CountIn(recent, DayStart(now, 6), DayStart(now, 6) + j * Day)
  {
    var b := Buckets(recent, now);
    if j > 0 {
      BucketPrefixSum(recent, now, j - 1);
      assert b[..j][..j - 1] == b[..j - 1];
      assert DayStart(now, 6 - (j - 1)) == DayStart(now, 6) + (j - 1) * Day;
      CountSplit(recent, DayStart(now, 6), DayStart(now, 6) + (j - 1) * Day, DayStart(now, 6) + j * Day);
    }
  }

  /**
   * The seven counts add up to the visits between midnight six days ago and
   * the next midnight, so never to more than the visits they were drawn from.
   */
  lemma BucketsSum(recent: seq<Visit>, now: int)
    ensures Sum(Buckets(recent, now)) == CountIn(recent, DayStart(now, 6), Midnight(now) + Day)
    ensures Sum(Buckets(recent, now)) <= |recent|
  {
    BucketPrefixSum(recent, now, 7);
    assert Buckets(recent, now)[..7] == Buckets(recent, now);
  }

  /** Every day of the histogram lies after the rolling seven-day cutoff. */
  lemma DaysAfterCutoff(now: int, k: nat)
    requires k < 7
    ensures now - 7 * Day < DayStart(now, 6 - k)
  {
  }

  /**
   * Counting over the visits the stats handler fetches (`getVisitsByDateRange(7)`)
   * gives the same seven counts as counting over all stored visits.
   */
  lemma BucketsOfRecent(visits: seq<Visit>, now: int)
    ensures Buckets(Since(visits, now - 7 * Day), now) == Buckets(visits, now)
  {
    var recent := Since(visits, now - 7 * Day);
    forall k | 0 <= k < 7 ensures Bucket(recent, now, k) == Bucket(visits, now, k) {
      DaysAfterCutoff(now, k);
      CountInSince(visits, now - 7 * Day, DayStart(now, 6 - k), DayStart(now, 6 - k) + Day);
    }
  }

  /**
   * With every visit at or before `now`, the counts add up to the visits at or
   * after midnight six days ago.
   */
  lemma BucketsSumOfPast(visits: seq<Visit>, now: int)
    requires forall v :: v in visits ==> v.visitedAt <= now
    ensures Sum(Buckets(Since(visits, now - 7 * Day), now)) == |Since(visits, DayStart(now, 6))|
  {
    BucketsOfRecent(visits, now);
    BucketsSum(visits, now);
    CountInBelow(visits, DayStart(now, 6), Midnight(now) + Day);
  }

  /**
   * When every visit falls within the seven calendar days ending today, the
   * counts add up to exactly the visits fetched with the rolling cutoff.
   */
  lemma BucketsSumAll(visits: seq<Visit>, now: int)
    requires forall v :: v in visits ==> DayStart(now, 6) <= v.visitedAt < Midnight(now) + Day
    ensures Sum(Buckets(Since(visits, now - 7 * Day), now)) == |Since(visits, now - 7 * Day)|
  {
    DaysAfterCutoff(now, 0);
    SinceKeepsAll(visits, now - 7 * Day);
    SinceKeepsAll(visits, DayStart(now, 6));
    BucketsOfRecent(visits, now);
    BucketsSum(visits, now);
    CountInBelow(visits, DayStart(now, 6), Midnight(now) + Day);
  }
}

=== FILE: home.dfy ===
/**
 * The pure parts of the landing page's visit tracking: browser
 * classification from the user agent, the mapping of a geolocation answer
 * onto location fields, and the payload posted to `/api/visits`.
 */
module Home {
  import opened Nullable
  import opened Visits

  /** `s.includes(t)`: the empty pattern occurs everywhere, a longer one nowhere. */
  predicate Includes(s: string, t: string)
    ensures t == [] ==> Includes(s, t)
    ensures Includes(s, t) ==> |t| <= |s|
    ensures Includes(s, t) && |t| == |s| ==> s == t
    decreases |s|
  {
    if |t| > |s| then false
    else if s[..|t|] == t then true
    else |s| > 0 && Includes(s[1..], t)
  }

  /** `t` occurs in `s` starting at position `i`. */
  ghost predicate OccursAt(s: string, t: string, i: int) {
    0 <= i && i + |t| <= |s| && s[i..i + |t|] == t
  }

  /** `Includes` holds exactly when `t` occurs at some position of `s`. */
  lemma {:induction false} IncludesIff(s: string, t: string)
    ensures Includes(s, t) <==> exists i :: OccursAt(s, t, i)
  {
    if |t| <= |s| && s[..|t|] != t && |s| > 0 {
      IncludesIff(s[1..], t);
      if Includes(s[1..], t) {
        var i :| OccursAt(s[1..], t, i);
        assert s[i + 1..i + 1 + |t|] == s[1..][i..i + |t|];
        assert OccursAt(s, t, i + 1);
      }
      if exists i :: OccursAt(s, t, i) {
        var i :| OccursAt(s, t, i);
        assert i != 0;
        assert s[1..][i - 1..i - 1 + |t|] == s[i..i + |t|];
        assert OccursAt(s[1..], t, i - 1);
      }
    } else if |t| <= |s| && s[..|t|] == t {
      assert OccursAt(s, t, 0);
    }
  }

  /** The names `getBrowserName` can return. */
  const BrowserNames: set<string> := {"Chrome", "Firefox", "Safari", "Edge", "Opera", "Unknown"}

  /** `getBrowserName`: the first of Chrome, Firefox, Safari, Edge, Opera the user agent mentions. */
  function BrowserName(userAgent: string): (name: string)
    ensures name in BrowserNames
    ensures name != "Unknown" ==> Includes(userAgent, name)
    ensures Includes(userAgent, "Chrome") ==> name == "Chrome"
    ensures Includes(userAgent, "Firefox") && !Includes(userAgent, "Chrome") ==> name == "Firefox"
    ensures Includes(userAgent, "Safari") && !Includes(userAgent, "Chrome") && !Includes(userAgent, "Firefox")
            ==> name == "Safari"
    ensures (Includes(userAgent, "Edge") && !Includes(userAgent, "Chrome") && !Includes(userAgent, "Firefox")
             && !Includes(userAgent, "Safari")) ==> name == "Edge"
    ensures (Includes(userAgent, "Opera") && !Includes(userAgent, "Chrome") && !Includes(userAgent, "Firefox")
             && !Includes(userAgent, "Safari") && !Includes(userAgent, "Edge")) ==> name == "Opera"
    ensures name == "Firefox" ==> !Includes(userAgent, "Chrome")
    ensures name == "Safari" ==> !Includes(userAgent, "Chrome") && !Includes(userAgent, "Firefox")
    ensures name == "Edge" ==>
      !Includes(userAgent, "Chrome") && !Includes(userAgent, "Firefox") && !Includes(userAgent, "Safari")
    ensures name == "Opera" ==>
      !Includes(userAgent, "Chrome") && !Includes(userAgent, "Firefox") && !Includes(userAgent, "Safari")
      && !Includes(userAgent, "Edge")
    ensures name == "Unknown" <==>
      !Includes(userAgent, "Chrome") && !Includes(userAgent, "Firefox") && !Includes(userAgent, "Safari")
      && !Includes(userAgent, "Edge") && !Includes(userAgent, "Opera")
  {
    if Includes(userAgent, "Chrome") then "Chrome"
    else if Includes(userAgent, "Firefox") then "Firefox"
    else if Includes(userAgent, "Safari") then "Safari"
    else if Includes(userAgent, "Edge") then "Edge"
    else if Includes(userAgent, "Opera") then "Opera"
    else "Unknown"
  }

  /** An occurrence in `s` is also one in any extension of `s` on the right. */
  lemma {:induction false} IncludesInPrefix(s: string, rest: string, t: string)
    requires Includes(s, t)
    ensures Includes(s + rest, t)
  {
    if s[..|t|] != t {
      assert (s + rest)[..|t|] == s[..|t|];
      assert (s + rest)[1..] == s[1..] + rest;
      IncludesInPrefix(s[1..], rest, t);
    } else {
      assert (s + rest)[..|t|] == s[..|t|];
    }
  }

  /** An occurrence in `s` is also one in any extension of `s` on the left. */
  lemma {:induction false} IncludesInSuffix(front: string, s: string, t: string)
    requires Includes(s, t)
    ensures Includes(front + s, t)
    decreases |front|
  {
    if front != [] {
      IncludesInSuffix(front[1..], s, t);
      assert (front + s)[1..] == front[1..] + s;
    } else {
      assert front + s == s;
    }
  }

  /**
   * The user agent of the legacy (EdgeHTML) Edge browser mentions Chrome,
   * Safari and Edge; it is reported as Chrome.
   */
  lemma LegacyEdgeIsChrome()
    ensures BrowserName(LegacyEdgeAgent) == "Chrome"
  {
    assert EdgeChromeToken[..6] == "Chrome";
    IncludesInSuffix(EdgeFront, EdgeChromeToken, "Chrome");
    IncludesInPrefix(EdgeFront + EdgeChromeToken, EdgeBack, "Chrome");
  }

  const EdgeFront: string :=
    "Mozilla/5.0 " + "(Windows NT 10.0; " + "Win64; x64) " + "AppleWebKit/537.36 " + "(KHTML, like Gecko) "
  const EdgeChromeToken: string := "Chrome/70.0.3538.102"
  const EdgeBack: string := " Safari/537.36" + " Edge/18.19582"
  const LegacyEdgeAgent: string := EdgeFront + EdgeChromeToken + EdgeBack

  /** The answer of a geolocation service, with both services' names for the fields. */
  datatype IpData = IpData(
    ip: Option<string>,
    city: Option<string>,
    region: Option<string>,
    regionName: Option<string>,
    countryName: Option<string>,       // country_name
    country: Option<string>,
    countryCodeSnake: Option<string>,  // country_code
    countryCode: Option<string>,
    timezone: Option<string>)

  /** The location fields sent with a visit. */
  datatype LocationInfo = LocationInfo(
    ip: Option<string>,
    city: Option<string>,
    region: Option<string>,
    country: Option<string>,
    countryCode: Option<string>,
    timezone: Option<string>)

  /** `locationInfo` built from a geolocation answer, preferring the first service's names. */
  function LocationFrom(d: IpData): (loc: LocationInfo)
    ensures loc.ip == d.ip && loc.city == d.city && loc.timezone == d.timezone
    ensures Truthy(loc.region) <==> Truthy(d.region) || Truthy(d.regionName)
    ensures Truthy(d.region) ==> loc.region == d.region
    ensures !Truthy(d.region) ==> loc.region == d.regionName
    ensures Truthy(loc.country) <==> Truthy(d.countryName) || Truthy(d.country)
    ensures Truthy(d.countryName) ==> loc.country == d.countryName
    ensures !Truthy(d.countryName) ==> loc.country == d.country
    ensures Truthy(loc.countryCode) <==> Truthy(d.countryCodeSnake) || Truthy(d.countryCode)
    ensures Truthy(d.countryCodeSnake) ==> loc.countryCode == d.countryCodeSnake
    ensures !Truthy(d.countryCodeSnake) ==> loc.countryCode == d.countryCode
  {
    LocationInfo(d.ip, d.city, Or(d.region, d.regionName), Or(d.countryName, d.country),
                 Or(d.countryCodeSnake, d.countryCode), d.timezone)
  }

  /** No location could be found: `locationInfo = {}`. */
  const NoLocation := LocationInfo(None, None, None, None, None, None)

  /** When no location could be found, the stored visit has `null` in every location field. */
  lemma NoLocationStoresNull(id: nat, userAgent: string, platform: string, language: string,
                             referrer: string, now: int)
    ensures var a := NewVisit(id, VisitPayload(NoLocation, userAgent, platform, language, referrer), now).attrs;
            a.ip == None && a.country == None && a.city == None && a.region == None
            && a.countryCode == None && a.timezone == None
  {
  }

  /**
   * `visitData = { ...locationInfo, browser, platform, language, userAgent,
   * referrer: referrer || undefined }`.
   */
  function VisitPayload(loc: LocationInfo, userAgent: string, platform: string,
                        language: string, referrer: string): (p: Attributes)
    ensures p.ip == loc.ip && p.city == loc.city && p.region == loc.region
    ensures p.country == loc.country && p.countryCode == loc.countryCode && p.timezone == loc.timezone
    ensures p.browser == Some(BrowserName(userAgent))
    ensures p.platform == Some(platform) && p.language == Some(language)
    ensures p.userAgent == Some(userAgent)
    ensures Truthy(p.referrer) <==> referrer != ""
    ensures referrer != "" ==> p.referrer == Some(referrer)
    ensures referrer == "" ==> p.referrer == None
  {
    Attributes(loc.ip, loc.country, loc.city, loc.region, loc.countryCode, loc.timezone,
               Some(BrowserName(userAgent)), Some(platform), Some(language), Some(userAgent),
               if referrer == "" then None else Some(referrer))
  }

  /** The browser name is never empty, so a visit posted by the page always stores a browser. */
  lemma StoredBrowserNeverNull(id: nat, loc: LocationInfo, userAgent: string, platform: string,
                               language: string, referrer: string, now: int)
    ensures NewVisit(id, VisitPayload(loc, userAgent, platform, language, referrer), now).attrs.browser
            == Some(BrowserName(userAgent))
  {
    var p := VisitPayload(loc, userAgent, platform, language, referrer);
    assert p.Get(Browser) == Some(BrowserName(userAgent));
    assert Truthy(p.Get(Browser));
  }
}

=== FILE: nullable.dfy ===
/**
 * Optional string properties as the JavaScript code handles them, and the
 * truthiness test behind `a || b`.
 */
module Nullable {
  /** A property that is `null` or `undefined` (None) or holds a value (Some). */
  datatype Option<+T> = None | Some(value: T)

  /** A string property is truthy exactly when it is present and not empty. */
  predicate Truthy(x: Option<string>) {
    x.Some? && x.value != ""
  }

  /** `a || b` on string properties: `a` when it is truthy, otherwise `b`. */
  function Or(a: Option<string>, b: Option<string>): (r: Option<string>)
    ensures Truthy(r) <==> Truthy(a) || Truthy(b)
    ensures Truthy(a) ==> r == a
    ensures !Truthy(a) ==> r == b
  {
    if Truthy(a) then a else b
  }

  /** `x || null`: a truthy value is kept, anything falsy becomes `null`. */
  function OrNull(x: Option<string>): (r: Option<string>)
    ensures Truthy(x) ==> r == x
    ensures !Truthy(x) ==> r == None
  {
    Or(x, None)
  }
}

=== FILE: seqs.dfy ===
/** Order facts about sequences shared by the store's filters. */
module Seqs {
  /** `a` is `b` with some elements removed and the rest kept in order. */
  ghost predicate IsSubsequence<T>(a: seq<T>, b: seq<T>)
    decreases |b|
  {
    a == [] ||
    (b != [] && ((a[0] == b[0] && IsSubsequence(a[1..], b[1..])) || IsSubsequence(a, b[1..])))
  }

  /** Sum of a sequence of counts. */
  function Sum(s: seq<nat>): nat
  {
    if s == [] then 0 else Sum(s[..|s| - 1]) + s[|s| - 1]
  }

  /** The last element of a non-empty sequence. */
  function Last(s: seq<int>): int
    requires s != []
  {
    s[|s| - 1]
  }
}

=== FILE: server_index.dfy ===
/**
 * The production server's in-memory store (visits plus the uptime window)
 * and the parts of its route handlers that compute with it: the real-ip
 * merge of `POST /api/visits`, the seven-day histogram of
 * `GET /api/visits/stats` and the store calls of `GET /health`.
 * Every operation takes the current time `now` (milliseconds) as a parameter.
 */
module ServerIndex {
  import opened Nullable
  import opened Clock
  import opened Seqs
  import opened Visits
  import opened Uptime
  import opened DailyStats
  import opened ClientIp

  class MemStorage {
    /** The `visits` Map, in insertion (= iteration) order. */
    var visits: seq<Visit>
    var currentVisitId: nat
    var uptimeChecks: seq<int>
    /** Fixed when the store is built; nothing reassigns it. */
    const serverStartTime: int
    /**
     * The clock value of the latest `createVisit`, or of construction. The
     * clock never goes back, so every later call passes a `now` at least this.
     */
    ghost var lastNow: int

    /**
     * Record `i` has id `i + 1` (so Map keys never collide and the Map's size
     * is the number of records), the counter is the next id, stored
     * attributes are never empty strings, and the uptime window spans at most
     * 24 hours back from its latest check. Since the clock never goes back,
     * `visitedAt` never decreases in creation order and no record is stamped
     * after `lastNow`.
     */
    ghost predicate Valid()
      reads this
    {
      && currentVisitId == |visits| + 1
      && KeyedByPosition(visits)
      && (forall i :: 0 <= i < |visits| ==> Normalised(visits[i].attrs))
      && WithinDay(uptimeChecks)
      && (forall i :: 0 <= i < |visits| ==> visits[i].visitedAt <= lastNow)
      && (forall i, j :: 0 <= i < j < |visits| ==> visits[i].visitedAt <= visits[j].visitedAt)
    }

    constructor (now: int)
      ensures Valid()
      ensures visits == [] && currentVisitId == 1 && uptimeChecks == []
      ensures serverStartTime == now && lastNow == now
    {
      visits := [];
      currentVisitId := 1;
      uptimeChecks := [];
      serverStartTime := now;
      lastNow := now;
    }

    /** Ids of the stored records are unique and strictly increase in creation order. */
    lemma IdsIncrease()
      requires Valid()
      ensures IdsIncreasing(visits)
      ensures forall i :: 0 <= i < |visits| ==> 1 <= visits[i].id < currentVisitId
    {
    }

    /** `createVisit`: the next id, every attribute `|| null`, stamped `now`; earlier records untouched. */
    method CreateVisit(visitData: Attributes, now: int) returns (visit: Visit)
      requires Valid() && lastNow <= now
      modifies this
      ensures Valid()
      ensures visit == NewVisit(old(currentVisitId), visitData, now)
      ensures visit.id == old(|visits|) + 1
      ensures visits == old(visits) + [visit]
      ensures currentVisitId == old(currentVisitId) + 1
      ensures uptimeChecks == old(uptimeChecks)
      ensures lastNow == now
    {
      var id := currentVisitId;
      currentVisitId := currentVisitId + 1;
      visit := NewVisit(id, visitData, now);
      visits := visits + [visit];
      lastNow := now;
    }

    /** `getVisits`: every record, in creation order. */
    method GetVisits() returns (all: seq<Visit>)
      requires Valid()
      ensures all == visits
      ensures IdsIncreasing(all)
    {
      all := visits;
    }

    /**
     * `getVisitsByDateRange(days)`: exactly the records stamped at or after
     * `now - days` days, in creation order.
     */
    method GetVisitsByDateRange(days: int, now: int) returns (recent: seq<Visit>)
      requires Valid()
      ensures recent == Since(visits, now - days * Day)
      ensures forall v :: v in recent <==> v in visits && v.visitedAt >= now - days * Day
      ensures IsSubsequence(recent, visits)
      ensures IdsIncreasing(recent)
    {
      var cutoff := now - days * Day;
      IdsIncrease();
      SinceIsSubsequence(visits, cutoff);
      SinceKeepsIdOrder(visits, cutoff);
      recent := Since(visits, cutoff);
    }

    /** `getTotalVisits`: the Map's size, which is the number of `createVisit` calls so far. */
    method GetTotalVisits() returns (total: nat)
      requires Valid()
      ensures total == |visits|
      ensures total == currentVisitId - 1
    {
      total := |visits|;
    }

    /**
     * `recordUptime`: append `now`, then keep only checks later than 24 hours
     * before `now`. Visits are untouched.
     */
    method RecordUptime(now: int)
      requires Valid()
      modifies this
      ensures Valid()
      ensures uptimeChecks == Recorded(old(uptimeChecks), now)
      ensures uptimeChecks != [] && Last(uptimeChecks) == now
      ensures forall t :: t in uptimeChecks ==> now - Day < t
      ensures IsSubsequence(uptimeChecks, old(uptimeChecks) + [now])
      ensures visits == old(visits) && currentVisitId == old(currentVisitId) && lastNow == old(lastNow)
    {
      uptimeChecks := uptimeChecks + [now];
      uptimeChecks := Later(uptimeChecks, now - Day);
      assert uptimeChecks == Recorded(old(uptimeChecks), now);
    }

    /**
     * `getUptimeStats`: the time since the server started, in hundredths of an
     * hour rounded half up, and the latest check or the start time if none.
     */
    method GetUptimeStats(now: int) returns (stats: UptimeStats)
      requires Valid()
      ensures stats.uptime == UptimeHundredths(now - serverStartTime)
      ensures stats.lastCheck == LastCheck(uptimeChecks, serverStartTime)
      ensures uptimeChecks == [] ==> stats.lastCheck == serverStartTime
      ensures uptimeChecks != [] ==> stats.lastCheck == Last(uptimeChecks)
    {
      var totalRunTime := now - serverStartTime;
      stats := UptimeStats(UptimeHundredths(totalRunTime), LastCheck(uptimeChecks, serverStartTime));
    }
  }

  /** The store-derived fields of the `/health` response. */
  datatype HealthReport = HealthReport(totalVisits: nat, uptimeHours: int, lastCheck: int)

  /** `GET /health`: record a check, then report the total and the uptime statistics. */
  method Health(storage: MemStorage, now: int) returns (report: HealthReport)
    requires storage.Valid()
    modifies storage
    ensures storage.Valid()
    ensures storage.uptimeChecks == Recorded(old(storage.uptimeChecks), now)
    ensures storage.visits == old(storage.visits) && storage.currentVisitId == old(storage.currentVisitId)
    ensures storage.lastNow == old(storage.lastNow)
    ensures report.lastCheck == now
    ensures report.totalVisits == |storage.visits|
    ensures report.uptimeHours == UptimeHundredths(now - storage.serverStartTime)
  {
    storage.RecordUptime(now);
    var totalVisits := storage.GetTotalVisits();
    var uptimeStats := storage.GetUptimeStats(now);
    report := HealthReport(totalVisits, uptimeStats.uptime, uptimeStats.lastCheck);
  }

  /**
   * `POST /api/visits`: the real client address replaces `ip` in the client's
   * data and the visit is stored (the webhook notification is not modelled).
   */
  method TrackVisit(storage: MemStorage, req: Request, clientData: Attributes, now: int)
    returns (visit: Visit)
    requires storage.Valid() && storage.lastNow <= now
    modifies storage
    ensures storage.Valid()
    ensures visit == NewVisit(old(storage.currentVisitId), WithRealIp(clientData, req), now)
    ensures visit.attrs.ip == OrNull(ToIp(RealIp(req, clientData.ip)))
    ensures storage.visits == old(storage.visits) + [visit]
    ensures storage.currentVisitId == old(storage.currentVisitId) + 1
    ensures storage.uptimeChecks == old(storage.uptimeChecks) && storage.lastNow == now
  {
    var visitData := WithRealIp(clientData, req);
    visit := storage.CreateVisit(visitData, now);
    assert visitData.Get(Ip) == ToIp(RealIp(req, clientData.ip));
  }

  /**
   * `GET /api/visits/stats`: the total, and the visits of the last seven days
   * (rolling cutoff) counted per calendar day, oldest first. The clock has
   * not gone back since the latest visit, so the counts cover every visit
   * since midnight six days ago.
   */
  method VisitStats(storage: MemStorage, now: int) returns (response: StatsResponse)
    requires storage.Valid() && storage.lastNow <= now
    ensures response.total == |storage.visits| == storage.currentVisitId - 1
    ensures response.daily == Buckets(Since(storage.visits, now - 7 * Day), now)
    ensures response.daily == Buckets(storage.visits, now)
    ensures Sum(response.daily) <= |Since(storage.visits, now - 7 * Day)|
    ensures Sum(response.daily) == |Since(storage.visits, DayStart(now, 6))|
    ensures response.labels == Labels(now)
  {
    var totalVisits := storage.GetTotalVisits();
    var recentVisits := storage.GetVisitsByDateRange(7, now);
    var daily, labels := DailyCounts(recentVisits, now);
    BucketsOfRecent(storage.visits, now);
    BucketsSum(recentVisits, now);
    BucketsSumOfPast(storage.visits, now);
    response := StatsResponse(totalVisits, daily, labels);
  }

  /**
   * Three visits created at `t0`: the total is 3 and a zero-day range at `t0`
   * returns all three.
   */
  method ThreeVisitsScenario(t0: int) returns (storage: MemStorage)
    ensures storage.Valid() && |storage.visits| == 3
    ensures forall v :: v in storage.visits ==> v.visitedAt == t0
  {
    storage := new MemStorage(t0);
    var v1 := storage.CreateVisit(NoAttributes, t0);
    var v2 := storage.CreateVisit(NoAttributes, t0);
    var v3 := storage.CreateVisit(NoAttributes, t0);
    ghost var stored := [v1, v2, v3];
    assert storage.visits == stored;
    var total := storage.GetTotalVisits();
    assert total == 3;
    SinceKeepsAll(stored, t0);
    var sameDay := storage.GetVisitsByDateRange(0, t0);
    assert sameDay == stored;
  }

  /** Eight days after visits made at `t0`, a seven-day range returns none of them. */
  method EightDaysLaterScenario(t0: int) {
    var storage := ThreeVisitsScenario(t0);
    var t8 := t0 + 8 * Day;
    assert t8 - 7 * Day == t0 + Day;
    SinceKeepsNone(storage.visits, t0 + Day);
    var later := storage.GetVisitsByDateRange(7, t8);
    assert later == [];
  }

  /**
   * A store built at `t0` and asked at `t0 + 2.5 h` reports 2.50 hours and,
   * with no check recorded, the start time as last check.
   */
  method UptimeScenario(t0: int) {
    var storage := new MemStorage(t0);
    var stats := storage.GetUptimeStats(t0 + 5 * Hour / 2);
    assert stats.uptime == 250;
    assert stats.lastCheck == t0;
  }
}

=== FILE: server_routes.dfy ===
/**
 * The route handlers of the typed server that compute with its store: the
 * real-ip merge of `POST /api/visits` and the seven-day histogram of
 * `GET /api/visits/stats`. The current time `now` is a parameter.
 */
module ServerRoutes {
  import opened Nullable
  import opened Clock
  import opened Seqs
  import opened Visits
  import opened DailyStats
  import opened ClientIp
  import opened ServerStorage

  /**
   * `POST /api/visits` (after schema validation): the real client address
   * replaces `ip` in the client's data and the visit is stored; users are
   * untouched (the webhook notification is not modelled).
   */
  method TrackVisit(storage: MemStorage, req: Request, clientData: Attributes, now: int)
    returns (visit: Visit)
    requires storage.Valid()
    modifies storage
    ensures storage.Valid()
    ensures visit == NewVisit(old(storage.currentVisitId), WithRealIp(clientData, req), now)
    ensures visit.attrs.ip == OrNull(ToIp(RealIp(req, clientData.ip)))
    ensures forall a :: a != Ip ==> visit.attrs.Get(a) == OrNull(clientData.Get(a))
    ensures storage.visits == old(storage.visits) + [visit]
    ensures storage.users == old(storage.users)
  {
    var visitData := WithRealIp(clientData, req);
    visit := storage.CreateVisit(visitData, now);
    assert visitData.Get(Ip) == ToIp(RealIp(req, clientData.ip));
  }

  /**
   * `GET /api/visits/stats`: the total, and the visits of the last seven days
   * (rolling cutoff) counted per calendar day, oldest first, one label per day.
   * The clock has not gone back since any stored visit, so the counts cover
   * every visit since midnight six days ago.
   */
  method VisitStats(storage: MemStorage, now: int) returns (response: StatsResponse)
    requires storage.Valid()
    requires forall v :: v in storage.visits ==> v.visitedAt <= now
    ensures response.total == |storage.visits| == storage.currentVisitId - 1
    ensures |response.daily| == 7 && |response.labels| == 7
    ensures forall k :: 0 <= k < 7 ==>
      response.daily[k] == CountIn(storage.visits, DayStart(now, 6 - k), DayStart(now, 6 - k) + Day)
    ensures Sum(response.daily) <= |Since(storage.visits, now - 7 * Day)|
    ensures Sum(response.daily) == |Since(storage.visits, DayStart(now, 6))|
    ensures response.labels == Labels(now)
  {
    var totalVisits := storage.GetTotalVisits();
    var recentVisits := storage.GetVisitsByDateRange(7, now);
    var daily, labels := DailyCounts(recentVisits, now);
    BucketsOfRecent(storage.visits, now);
    BucketsSum(recentVisits, now);
    BucketsSumOfPast(storage.visits, now);
    response := StatsResponse(totalVisits, daily, labels);
  }
}

=== FILE: server_storage.dfy ===
/**
 * The typed in-memory store: a user table next to the visit records, each
 * with its own id counter. It has no uptime window. Every operation that
 * reads the clock takes the current time `now` (milliseconds) as a parameter.
 */
module ServerStorage {
  import opened Nullable
  import opened Clock
  import opened Seqs
  import opened Visits

  /** `InsertUser`: what a caller supplies for a new user. */
  datatype InsertUser = InsertUser(username: string, password: string)

  /** `User`: `{ ...insertUser, id }`. */
  datatype User = User(id: nat, username: string, password: string)

  /** The users of a table keyed 1, 2, 3, ... in insertion order. */
  ghost predicate UsersKeyedByPosition(us: seq<User>) {
    forall i :: 0 <= i < |us| ==> us[i].id == i + 1
  }

  /** `Map.get(id)` on a user table: the user stored under `id`, if any. */
  function UserById(us: seq<User>, id: int): (r: Option<User>)
    ensures r.Some? ==> r.value in us && r.value.id == id
    ensures r.None? ==> forall u :: u in us ==> u.id != id
  {
    if us == [] then None
    else if us[0].id == id then Some(us[0])
    else UserById(us[1..], id)
  }

  /**
   * `Array.from(users.values()).find(user => user.username === username)`:
   * position of the first user with that name, if any.
   */
  function FirstWithUsername(us: seq<User>, username: string): (r: Option<nat>)
    ensures r.Some? ==> r.value < |us| && us[r.value].username == username
    ensures r.Some? ==> forall j :: 0 <= j < r.value ==> us[j].username != username
    ensures r.None? ==> forall u :: u in us ==> u.username != username
  {
    if us == [] then None
    else if us[0].username == username then Some(0)
    else match FirstWithUsername(us[1..], username)
      case None => None
      case Some(k) => Some(k + 1)
  }

  /** In a table keyed by position, looking up id `id` finds the record at position `id - 1`. */
  lemma {:induction false} UserByIdAtPosition(us: seq<User>, id: int)
    requires UsersKeyedByPosition(us)
    ensures 1 <= id <= |us| ==> UserById(us, id) == Some(us[id - 1])
    ensures !(1 <= id <= |us|) ==> UserById(us, id) == None
  {
    if us != [] && us[0].id != id {
      var tail := us[1..];
      forall u | u in tail ensures u.id >= 2 {
        var k :| 0 <= k < |tail| && tail[k] == u;
        assert u == us[k + 1];
      }
      if 2 <= id <= |us| {
        assert tail[id - 2] == us[id - 1];
        FoundAtPosition(tail, id, id - 2);
      }
    }
  }

  /** Looking up an id finds the first record that has it. */
  lemma {:induction false} FoundAtPosition(us: seq<User>, id: int, k: nat)
    requires k < |us| && us[k].id == id
    requires forall j :: 0 <= j < k ==> us[j].id != id
    ensures UserById(us, id) == Some(us[k])
  {
    if k > 0 {
      FoundAtPosition(us[1..], id, k - 1);
    }
  }

  class MemStorage {
    /** The `users` and `visits` Maps, in insertion (= iteration) order. */
    var users: seq<User>
    var visits: seq<Visit>
    var currentUserId: nat
    var currentVisitId: nat

    /** Each table is keyed 1, 2, 3, ... by its own counter; stored visit attributes are never empty. */
    ghost predicate Valid()
      reads this
    {
      && currentUserId == |users| + 1
      && UsersKeyedByPosition(users)
      && currentVisitId == |visits| + 1
      && KeyedByPosition(visits)
      && (forall i :: 0 <= i < |visits| ==> Normalised(visits[i].attrs))
    }

    constructor ()
      ensures Valid()
      ensures users == [] && visits == [] && currentUserId == 1 && currentVisitId == 1
    {
      users := [];
      visits := [];
      currentUserId := 1;
      currentVisitId := 1;
    }

    /** `getUser(id)`: the user created with that id, or undefined. */
    method GetUser(id: int) returns (user: Option<User>)
      requires Valid()
      ensures user == UserById(users, id)
      ensures user.Some? <==> 1 <= id < currentUserId
      ensures user.Some? ==> user.value in users && user.value.id == id
    {
      UserByIdAtPosition(users, id);
      if 1 <= id <= |users| {
        user := Some(users[id - 1]);
      } else {
        user := None;
      }
    }

    /**
     * `getUserByUsername`: the earliest-created user with that name, or
     * undefined when there is none.
     */
    method GetUserByUsername(username: string) returns (user: Option<User>)
      requires Valid()
      ensures user.None? <==> forall u :: u in users ==> u.username != username
      ensures user.Some? ==> user.value in users && user.value.username == username
      ensures user.Some? ==> forall u :: u in users && u.username == username ==> user.value.id <= u.id
    {
      var found := FirstWithUsername(users, username);
      match found
      case None =>
        user := None;
      case Some(k) =>
        user := Some(users[k]);
        forall u | u in users && u.username == username ensures users[k].id <= u.id {
          var j :| 0 <= j < |users| && users[j] == u;
          assert k <= j;
        }
    }

    /** `createUser`: the next user id with the given fields; visits are untouched. Duplicate names are accepted. */
    method CreateUser(insertUser: InsertUser) returns (user: User)
      requires Valid()
      modifies this
      ensures Valid()
      ensures user == User(old(currentUserId), insertUser.username, insertUser.password)
      ensures users == old(users) + [user]
      ensures currentUserId == old(currentUserId) + 1
      ensures visits == old(visits) && currentVisitId == old(currentVisitId)
    {
      var id := currentUserId;
      currentUserId := currentUserId + 1;
      user := User(id, insertUser.username, insertUser.password);
      users := users + [user];
    }

    /** `createVisit`: the next visit id, every attribute `|| null`, stamped `now`; users are untouched. */
    method CreateVisit(insertVisit: Attributes, now: int) returns (visit: Visit)
      requires Valid()
      modifies this
      ensures Valid()
      ensures visit == NewVisit(old(currentVisitId), insertVisit, now)
      ensures visits == old(visits) + [visit]
      ensures currentVisitId == old(currentVisitId) + 1
      ensures users == old(users) && currentUserId == old(currentUserId)
    {
      var id := currentVisitId;
      currentVisitId := currentVisitId + 1;
      visit := NewVisit(id, insertVisit, now);
      visits := visits + [visit];
    }

    /** `getVisits`: every record, in creation order. */
    method GetVisits() returns (all: seq<Visit>)
      requires Valid()
      ensures all == visits
      ensures IdsIncreasing(all)
    {
      all := visits;
    }

    /**
     * `getVisitsByDateRange(days)`: exactly the records stamped at or after
     * `now - days` days, in creation order.
     */
    method GetVisitsByDateRange(days: int, now: int) returns (recent: seq<Visit>)
      requires Valid()
      ensures recent == Since(visits, now - days * Day)
      ensures forall v :: v in recent <==> v in visits && v.visitedAt >= now - days * Day
      ensures IsSubsequence(recent, visits)
      ensures IdsIncreasing(recent)
    {
      var cutoff := now - days * Day;
      assert IdsIncreasing(visits);
      SinceIsSubsequence(visits, cutoff);
      SinceKeepsIdOrder(visits, cutoff);
      recent := Since(visits, cutoff);
    }

    /** `getTotalVisits`: the number of `createVisit` calls so far. */
    method GetTotalVisits() returns (total: nat)
      requires Valid()
      ensures total == |visits|
      ensures total == currentVisitId - 1
    {
      total := |visits|;
    }
  }

  /** Two users with the same name are both stored; lookup by name finds the first. */
  method DuplicateUsernameScenario() {
    var storage := new MemStorage();
    var first := storage.CreateUser(InsertUser("ann", "one"));
    var second := storage.CreateUser(InsertUser("ann", "two"));
    assert storage.users == [first, second];
    var found := storage.GetUserByUsername("ann");
    assert found == Some(first);
    var byId := storage.GetUser(2);
    assert byId == Some(second);
    var missing := storage.GetUser(3);
    assert missing == None;
  }
}

=== FILE: uptime.dfy ===
/**
 * The uptime window of the in-memory store: liveness-check timestamps kept
 * for the trailing 24 hours, and the uptime figure reported from the fixed
 * server start time.
 */
module Uptime {
  import opened Clock
  import opened Seqs

  /** `checks.filter(check => check > cutoff)`. */
  function Later(checks: seq<int>, cutoff: int): (r: seq<int>)
    ensures |r| <= |checks|
    ensures forall t :: t in r <==> t in checks && t > cutoff
    ensures forall t :: multiset(r)[t] == if t > cutoff then multiset(checks)[t] else 0
  {
    if checks == [] then []
    else
      assert checks == [checks[0]] + checks[1..];
      (if checks[0] > cutoff then [checks[0]] else []) + Later(checks[1..], cutoff)
  }

  /** A check that passes the filter stays last after it. */
  lemma {:induction false} LaterAppend(checks: seq<int>, t: int, cutoff: int)
    requires t > cutoff
    ensures Later(checks + [t], cutoff) == Later(checks, cutoff) + [t]
  {
    if checks == [] {
      assert checks + [t] == [t];
    } else {
      assert (checks + [t])[1..] == checks[1..] + [t];
      LaterAppend(checks[1..], t, cutoff);
    }
  }

  /** Surviving checks keep their relative order. */
  lemma {:induction false} LaterIsSubsequence(checks: seq<int>, cutoff: int)
    ensures IsSubsequence(Later(checks, cutoff), checks)
  {
    if checks != [] {
      LaterIsSubsequence(checks[1..], cutoff);
      var rest := Later(checks[1..], cutoff);
      if checks[0] > cutoff {
        assert Later(checks, cutoff) == [checks[0]] + rest;
      } else {
        assert Later(checks, cutoff) == rest;
      }
    }
  }

  /** Every check lies within the 24 hours before the most recent one. */
  ghost predicate WithinDay(checks: seq<int>) {
    checks != [] ==> forall t :: t in checks ==> t > Last(checks) - Day
  }

  /**
   * The window after `recordUptime` at time `now`: `now` is appended, then
   * every check not later than 24 hours before `now` is pruned.
   */
  function Recorded(checks: seq<int>, now: int): (r: seq<int>)
    ensures r != [] && Last(r) == now
    ensures forall t :: t in r <==> (t in checks && t > now - Day) || t == now
    ensures WithinDay(r)
    ensures IsSubsequence(r, checks + [now])
  {
    LaterAppend(checks, now, now - Day);
    LaterIsSubsequence(checks + [now], now - Day);
    Later(checks + [now], now - Day)
  }

  /** The check `getUptimeStats` reports: the latest one, or the start time if none is kept. */
  function LastCheck(checks: seq<int>, serverStartTime: int): (t: int)
    ensures checks == [] ==> t == serverStartTime
    ensures checks != [] ==> t in checks && t == checks[|checks| - 1]
  {
    if |checks| > 0 then Last(checks) else serverStartTime
  }

  /** One hundredth of an hour in milliseconds. */
  const HundredthHour: int := 36_000

  /**
   * `Math.round(hours * 100)` for an elapsed time of `elapsed` milliseconds:
   * the nearest hundredth of an hour, halves rounded up.
   */
  function UptimeHundredths(elapsed: int): (h: int)
    ensures h * HundredthHour - HundredthHour / 2 <= elapsed < h * HundredthHour + HundredthHour / 2
  {
    (elapsed + HundredthHour / 2) / HundredthHour
  }

  /** The reported uptime never decreases as time passes. */
  lemma UptimeMonotone(earlier: int, later: int)
    requires earlier <= later
    ensures UptimeHundredths(earlier) <= UptimeHundredths(later)
  {
  }

  /** What `getUptimeStats` returns; `uptime` is in hundredths of an hour. */
  datatype UptimeStats = UptimeStats(uptime: int, lastCheck: int)
}

=== FILE: visits.dfy ===
/**
 * Visit records: the eleven optional attributes a caller hands in, the
 * record `createVisit` builds from them, and the rolling date-range filter
 * that both copies of the store apply to their records.
 */
module Visits {
  import opened Nullable
  import opened Seqs

  /** Names of the eleven optional visit attributes. */
  datatype Attr =
    | Ip | Country | City | Region | CountryCode | Timezone
    | Browser | Platform | Language | UserAgent | Referrer

  /**
   * The optional attributes of a visit. As input (`InsertVisit`) a value
   * may be absent, empty or present; in a stored record None is `null`.
   */
  datatype Attributes = Attributes(
    ip: Option<string>,
    country: Option<string>,
    city: Option<string>,
    region: Option<string>,
    countryCode: Option<string>,
    timezone: Option<string>,
    browser: Option<string>,
    platform: Option<string>,
    language: Option<string>,
    userAgent: Option<string>,
    referrer: Option<string>)
  {
    function Get(a: Attr): Option<string> {
      match a
      case Ip => ip
      case Country => country
      case City => city
      case Region => region
      case CountryCode => countryCode
      case Timezone => timezone
      case Browser => browser
      case Platform => platform
      case Language => language
      case UserAgent => userAgent
      case Referrer => referrer
    }
  }

  /** The empty input `{}`: every attribute absent. */
  const NoAttributes := Attributes(None, None, None, None, None, None, None, None, None, None, None)

  /** A stored visit: its id, its normalised attributes and its timestamp. */
  datatype Visit = Visit(id: nat, attrs: Attributes, visitedAt: int)

  /** No attribute of a stored record is the empty string: it would have become `null`. */
  ghost predicate Normalised(attrs: Attributes) {
    forall a :: attrs.Get(a) != Some("")
  }

  /**
   * The record `createVisit` stores: the given id, every attribute passed
   * through `|| null`, and the creation time.
   */
  function NewVisit(id: nat, input: Attributes, now: int): (v: Visit)
    ensures v.id == id && v.visitedAt == now
    ensures forall a :: Truthy(input.Get(a)) ==> v.attrs.Get(a) == input.Get(a)
    ensures forall a :: !Truthy(input.Get(a)) ==> v.attrs.Get(a) == None
    ensures Normalised(v.attrs)
  {
    Visit(id, Attributes(
      OrNull(input.ip), OrNull(input.country), OrNull(input.city), OrNull(input.region),
      OrNull(input.countryCode), OrNull(input.timezone), OrNull(input.browser),
      OrNull(input.platform), OrNull(input.language), OrNull(input.userAgent),
      OrNull(input.referrer)), now)
  }

  /** Normalising a record that is already normalised changes nothing. */
  lemma NewVisitIdempotent(id: nat, input: Attributes, now: int)
    ensures NewVisit(id, NewVisit(id, input, now).attrs, now) == NewVisit(id, input, now)
  {
    var once := NewVisit(id, input, now);
    var twice := NewVisit(id, once.attrs, now);
    assert forall a :: twice.attrs.Get(a) == once.attrs.Get(a);
    assert twice.attrs.ip == once.attrs.Get(Ip);
  }

  /** The records of a store keyed 1, 2, 3, ... in insertion order. */
  ghost predicate KeyedByPosition(vs: seq<Visit>) {
    forall i :: 0 <= i < |vs| ==> vs[i].id == i + 1
  }

  /** Ids strictly increase along the sequence (so they are also unique). */
  ghost predicate IdsIncreasing(vs: seq<Visit>) {
    forall i, j :: 0 <= i < j < |vs| ==> vs[i].id < vs[j].id
  }

  /**
   * `visits.filter(visit => visit.visitedAt >= cutoff)`: the records at or
   * after the cutoff, in the order they were stored.
   */
  function Since(vs: seq<Visit>, cutoff: int): (r: seq<Visit>)
    ensures |r| <= |vs|
    ensures forall v :: v in r <==> v in vs && v.visitedAt >= cutoff
  {
    if vs == [] then []
    else (if vs[0].visitedAt >= cutoff then [vs[0]] else []) + Since(vs[1..], cutoff)
  }

  /** The filter keeps every copy of a record at or after the cutoff and no copy of one before it. */
  lemma {:induction false} SinceMultiplicity(vs: seq<Visit>, cutoff: int, v: Visit)
    ensures multiset(Since(vs, cutoff))[v] == if v.visitedAt >= cutoff then multiset(vs)[v] else 0
  {
    if vs != [] {
      SinceMultiplicity(vs[1..], cutoff, v);
      assert vs == [vs[0]] + vs[1..];
    }
  }

  /** The filtered records keep their relative order. */
  lemma {:induction false} SinceIsSubsequence(vs: seq<Visit>, cutoff: int)
    ensures IsSubsequence(Since(vs, cutoff), vs)
  {
    if vs != [] {
      SinceIsSubsequence(vs[1..], cutoff);
      var rest := Since(vs[1..], cutoff);
      if vs[0].visitedAt >= cutoff {
        assert Since(vs, cutoff) == [vs[0]] + rest;
      } else {
        assert Since(vs, cutoff) == rest;
      }
    }
  }

  /** An earlier cutoff keeps every record a later one keeps, in the same order. */
  lemma {:induction false} SinceMonotone(vs: seq<Visit>, later: int, earlier: int)
    requires earlier <= later
    ensures IsSubsequence(Since(vs, later), Since(vs, earlier))
  {
    if vs != [] {
      SinceMonotone(vs[1..], later, earlier);
      var a, b := Since(vs[1..], later), Since(vs[1..], earlier);
      if vs[0].visitedAt >= later {
        assert Since(vs, later) == [vs[0]] + a;
        assert Since(vs, earlier) == [vs[0]] + b;
      } else if vs[0].visitedAt >= earlier {
        assert Since(vs, later) == a;
        assert Since(vs, earlier) == [vs[0]] + b;
        assert ([vs[0]] + b)[1..] == b;
      } else {
        assert Since(vs, later) == a;
        assert Since(vs, earlier) == b;
      }
    }
  }

  /** Filtering records stored in id order gives records in id order. */
  lemma {:induction false} SinceKeepsIdOrder(vs: seq<Visit>, cutoff: int)
    requires IdsIncreasing(vs)
    ensures IdsIncreasing(Since(vs, cutoff))
  {
    if vs != [] {
      var tail := vs[1..];
      TailIdsIncreasing(vs);
      SinceKeepsIdOrder(tail, cutoff);
      if vs[0].visitedAt >= cutoff {
        HeadIdBelowTail(vs);
        ConsIdsIncreasing(vs[0], Since(tail, cutoff));
        assert Since(vs, cutoff) == [vs[0]] + Since(tail, cutoff);
      } else {
        assert Since(vs, cutoff) == Since(tail, cutoff);
      }
    }
  }

  lemma TailIdsIncreasing(vs: seq<Visit>)
    requires vs != [] && IdsIncreasing(vs)
    ensures IdsIncreasing(vs[1..])
  {
    var tail := vs[1..];
    forall i, j | 0 <= i < j < |tail| ensures tail[i].id < tail[j].id {
      assert tail[i] == vs[i + 1] && tail[j] == vs[j + 1];
    }
  }

  lemma HeadIdBelowTail(vs: seq<Visit>)
    requires vs != [] && IdsIncreasing(vs)
    ensures forall v :: v in vs[1..] ==> vs[0].id < v.id
  {
    forall v | v in vs[1..] ensures vs[0].id < v.id {
      var k :| 0 <= k < |vs[1..]| && vs[1..][k] == v;
      assert v == vs[k + 1];
    }
  }

  lemma ConsIdsIncreasing(head: Visit, rest: seq<Visit>)
    requires IdsIncreasing(rest)
    requires forall v :: v in rest ==> head.id < v.id
    ensures IdsIncreasing([head] + rest)
  {
    var r := [head] + rest;
    forall i, j | 0 <= i < j < |r| ensures r[i].id < r[j].id {
      assert r[j] == rest[j - 1];
      if i > 0 {
        assert r[i] == rest[i - 1];
      } else {
        assert rest[j - 1] in rest;
      }
    }
  }

  /** When every record is at or after the cutoff the filter keeps them all. */
  lemma {:induction false} SinceKeepsAll(vs: seq<Visit>, cutoff: int)
    requires forall v :: v in vs ==> v.visitedAt >= cutoff
    ensures Since(vs, cutoff) == vs
  {
    if vs != [] {
      assert vs[0] in vs;
      assert forall v :: v in vs[1..] ==> v in vs;
      SinceKeepsAll(vs[1..], cutoff);
      assert [vs[0]] + vs[1..] == vs;
    }
  }

  /** When every record is before the cutoff the filter keeps none. */
  lemma SinceKeepsNone(vs: seq<Visit>, cutoff: int)
    requires forall v :: v in vs ==> v.visitedAt < cutoff
    ensures Since(vs, cutoff) == []
  {
  }
}
